=== FILE: README.md ===
# Knowledge-base bot: a Dafny model of its engine

The bot in `main.py` keeps a reference book as a list of entries. Each entry
has a few aliases (its keys) and a paragraph of text. Users change the book
with three commands:
- `/add k1,k2 text` appends an entry;
- `/delete k1,k2` removes every entry holding one of the keys;
- `/edit k text` replaces the text of the first entry holding one of the keys.

Any other message is a question. The bot answers with the text of every entry
that has a key sharing a whole word with the lower-cased message. The book is
kept in a Google sheet with two columns: `Keys` holds the keys joined by
commas, and `Text` holds the text. The sheet is read once at start-up and
rewritten after each change.

This project models that engine as pure functions over immutable values:
- the store is a `seq<Entry>`;
- each command is a function from the store and the command's argument text
  to an `Outcome`, which holds the new store, whether the sheet is rewritten,
  and the reply as data;
- the matcher is a function to the set of texts sent back;
- the sheet is a sequence of records, where a record maps column headers to
  cell text.

It proves what each operation guarantees, and how they fit together over a
session.

Modules, in dependency order:
- `Common`: the `Option` type.
- `Chars`: the three character classes the string code relies on. These are
  Python's `isspace`, `lower()` on one character, and the regex class `\w`.
- `Strings`: `strip`, `lower`, `split`, `join` and `split(" ", 1)` on
  `seq<char>`, with their round trips.
- `Keys`: the key-list normaliser that `main.py` writes inline four times,
  at lines 57, 114, 131 and 170.
- `Tokens`: `re.findall(r'\w+', s)` as a position-based scan, proved equal to
  "the whole words of `s`".
- `Store`: `Entry`, well-formedness, and the "shares a lower-cased key" test
  that delete and edit use.
- `Commands`: the argument slice after the command word, and the
  "keys, one space, body" parse shared by `/add` and `/edit`.
- `AddCommand`, `DeleteCommand`, `EditCommand`: the three commands.
- `Matcher`: `handle_message`.
- `Sheet`: the row codec of `load_data` and `save_data`.
- `Session`: properties that span several operations. These cover
  persistence after each command, and a change made through one alias being
  seen through another.

Three behaviours of the code are worth knowing, because they are easy to
miss:
- `/add , text` appends an entry with an empty key list
  (`AddCommand.AddAcceptsEmptyKeyList`).
- Only a literal space separates keys from body; a tab does not
  (`AddCommand.AddNeedsLiteralSpace`).
- `handle_message` tokenises keys as stored, without lower-casing them.

## Model

| member | source | states |
|---|---|---|
| `Chars.IsSpace` | main.py:109 | the characters `strip()` removes, exactly those for which Python's `str.isspace` holds; `Chars.LowerFacts` and `Strings.Strip` state what the rest of the model uses of it |
| `Chars.Lower` | main.py:191 | `lower()` on one character: ASCII and Latin-1 capitals move by 0x20, Cyrillic `Ѐ`–`Џ` by 0x50, `А`–`Я` by 0x20, the paired Cyrillic capitals to their neighbour and `Ӏ` to `ӏ`; `Chars.LowerFacts` states its properties |
| `Chars.IsWordChar` | main.py:192 | the class `\w`: ASCII letters, digits and `_`, the Latin-1 letters and numerics, and the Cyrillic letters; `Tokens.TokensSound` and `Tokens.TokensComplete` build the tokens on it |
| `Chars.LowerFacts` | main.py:191 | lower-casing a character is idempotent and neither creates nor removes whitespace, word characters or the comma |
| `Strings.Strip` | main.py:109 | `strip()` returns a contiguous slice of its input that starts right after the leading whitespace and is followed only by whitespace, and the result has no whitespace at either end |
| `Strings.SplitOnce` | main.py:113 | `text.split(" ", 1)` fails exactly when there is no space; otherwise the first part has no space, and first part, space and rest rebuild the text |
| `Strings.SplitOnceOf` | main.py:113 | splitting `a + " " + b` at its first space, where `a` has no space, gives back exactly `a` and `b` |
| `Strings.LowerStr` | main.py:191 | `lower()` on a string, character by character; `Strings.LowerStrFacts` states what it keeps |
| `Strings.LowerStrFacts` | main.py:114 | a lower-cased string is lower-case, stays trimmed and comma-free when its input was, and a lower-case string is its own lower-casing |
| `Strings.Split` | main.py:57 | `split(",")` gives at least one piece, and no piece holds the separator; `Strings.JoinSplit` and `Strings.SplitJoin` pin the pieces |
| `Strings.Join` | main.py:67 | `",".join`, characterised by its round trips `Strings.JoinSplit` and `Strings.SplitJoin` |
| `Strings.JoinSplit` | main.py:57 | joining the comma-split pieces of a cell with commas restores the cell |
| `Strings.SplitJoin` | main.py:67 | a non-empty list of comma-free pieces joined with commas splits back into the same pieces (the empty list is excluded: it joins to the empty cell, which splits into one empty piece) |
| `Strings.SplitAround` | main.py:131 | splitting `a,b` gives the pieces of `a` followed by the pieces of `b` |
| `Keys.NormaliseKeys` | main.py:114 | every key the normaliser produces is non-empty, trimmed, lower-case and comma-free, and there is at most one key per comma-separated fragment |
| `Keys.CleanFragment` | main.py:114 | one fragment of the comprehension `[k.strip().lower() for k in … if k.strip()]` gives at most one key, which is non-empty, trimmed and lower-case, and comma-free when the fragment is |
| `Keys.Clean` | main.py:114 | the comprehension over all fragments; `Keys.CleanIsNormal` shows every key it keeps is normal and that there are no more keys than fragments |
| `Keys.CleanIsNormal` | main.py:114 | the comprehension over comma-free fragments yields normal keys, at most one per fragment |
| `Keys.NormaliseAppend` | main.py:131 | the keys of `a,b` are the keys of `a` followed by the keys of `b`, so source order is kept and duplicates are not removed |
| `Keys.NormaliseFragment` | main.py:170 | a comma-free fragment gives nothing when it is blank, and otherwise exactly its stripped, lower-cased self |
| `Keys.NormaliseJoin` | main.py:57 | normalising the comma join of a normal key list gives back the same list |
| `Keys.NormaliseIdempotent` | main.py:57 | normalising, joining with commas and normalising again changes nothing |
| `Store.LowerKeysNormal` | main.py:136 | lower-casing the keys of a well-formed entry changes none of them |
| `Store.LowerKeys` | main.py:136 | `[k.lower() for k in item['keys']]`; `Store.LowerKeysNormal` shows it changes nothing on a well-formed entry |
| `Store.Hits` | main.py:137 | `any(k in keys_to_delete for k in item_keys_lower)`, also the test at main.py:175; `EditCommand.FirstHit` and `DeleteCommand.SurvivorsContent` are stated with it |
| `Tokens.Tokens` | main.py:192 | `re.findall(r'\w+', s)`, characterised by `Tokens.TokensSound` and `Tokens.TokensComplete` |
| `Tokens.TokenSet` | main.py:196 | `set(re.findall(r'\w+', s))`, characterised by `Tokens.TokenSetIsWholeWords` |
| `Tokens.TokensSound` | main.py:192 | every token `\w+` finds is a maximal run of word characters found at some position of the string |
| `Tokens.TokensComplete` | main.py:192 | every maximal run of word characters of the string is among the tokens |
| `Tokens.TokenSetIsWholeWords` | main.py:196 | the token set of a string holds exactly its whole words |
| `Tokens.WordTokens` | main.py:196 | a string that is a single run of word characters has exactly itself as its only token |
| `Commands.CommandArgument` | main.py:109 | the argument is what follows the command prefix; it is empty when the message is no longer than the prefix |
| `Commands.ArgumentSkipsOneChar` | main.py:102-109 | a message is routed on `/add` but sliced after `/add `, so the one character after the command word is dropped whatever it is |
| `Commands.ParseKeysAndBody` | main.py:109-114 | the parse fails exactly when the stripped argument has no space; otherwise the keys are the normalised text before the first space, the body is the text after it, and the body ends in a non-space |
| `Commands.ParseLayout` | main.py:113-114 | a trimmed `keys body` argument whose key part has no space parses back into the normalised key part and exactly that body |
| `AddCommand.Add` | main.py:109-116 | without a space the store is unchanged and nothing is saved; otherwise exactly one entry is appended after the untouched old entries, with the keys normalised from the text before the first space and the text after it, and the store is saved |
| `AddCommand.AddKeepsWellFormed` | main.py:114-115 | adding to a store whose keys are all normal keeps every key normal |
| `AddCommand.CommaNamesNoKey` | main.py:114 | a lone comma normalises to the empty key list |
| `AddCommand.AddAcceptsEmptyKeyList` | main.py:113-115 | `/add , text` appends an entry with no key at all, because nothing rejects an empty key list |
| `AddCommand.AddNeedsLiteralSpace` | main.py:110-112 | a tab between keys and body is not a separator, so the store is left unchanged |
| `DeleteCommand.Within` | main.py:138 | the filter keeps exactly the values that are in the second list |
| `DeleteCommand.WithinCount` | main.py:138 | the filter keeps each wanted element as often as it occurs among the candidates |
| `DeleteCommand.WithinAppend` | main.py:138 | the filter works block by block, so it keeps the candidates' order |
| `DeleteCommand.Outside` | main.py:142 | the filter keeps exactly the values that are not in the second list |
| `DeleteCommand.OutsideCount` | main.py:142 | the filter keeps each unwanted element as often as it occurs among the candidates, so `/delete x,x` with `x` absent reports `x` twice |
| `DeleteCommand.OutsideAppend` | main.py:142 | the filter works block by block, so it keeps the candidates' order |
| `DeleteCommand.Survivors` | main.py:134-140 | the entries `new_answers` keeps, characterised by `DeleteCommand.SurvivorsContent` and `DeleteCommand.SurvivorsAppend` |
| `DeleteCommand.DeletedKeys` | main.py:135-140 | the list `deleted`, duplicates included, characterised by `DeleteCommand.DeletedKeysContent` and `DeleteCommand.DeletedKeysCount` |
| `DeleteCommand.SurvivorsContent` | main.py:134-140 | the surviving entries are exactly the entries without a candidate among their lower-cased keys, each kept as many times as it occurs |
| `DeleteCommand.SurvivorsAppend` | main.py:135-140 | the survivors of two blocks are the first block's survivors followed by the second's, so relative order is kept |
| `DeleteCommand.DeletedKeysContent` | main.py:135-138 | a candidate is reported deleted exactly when some entry of the store holds it |
| `DeleteCommand.DeletedKeysCount` | main.py:138 | the deleted list is not deduplicated: each candidate occurs once for every entry holding it, times its repetitions among the candidates |
| `DeleteCommand.Delete` | main.py:130-146 | the store always gets saved; the new store holds exactly the old entries that share no key with the normalised candidates; `deleted` holds exactly the candidates some entry held; `not_found` holds exactly the other candidates; well-formedness is kept |
| `DeleteCommand.DeleteTwice` | main.py:130-146 | a second identical delete leaves the store unchanged and reports every candidate as not found |
| `DeleteCommand.DeleteEntries` | main.py:132-142 | the single pass over the store, written as a loop, builds the same survivors, deleted list and not-found list |
| `EditCommand.FirstHit` | main.py:173-178 | the search finds nothing exactly when no entry shares a key with the candidates; otherwise it finds an entry that does, and no earlier entry does |
| `EditCommand.Rewrite` | main.py:172-184 | with no hit the store is unchanged and nothing is saved; otherwise the store is saved and only the first hitting entry's text changes, replaced wholesale by the body, while its keys and every other entry stay, later hits included |
| `EditCommand.Edit` | main.py:165-184 | without a space the store is unchanged and nothing is saved; otherwise the result is the rewrite for the keys normalised from the text before the first space and the body after it |
| `EditCommand.RewriteKeepsKeys` | main.py:176 | rewriting never changes the store's length, any entry's keys, or well-formedness |
| `EditCommand.EditKeepsKeys` | main.py:165-178 | editing never changes the store's length, any entry's keys, or well-formedness |
| `EditCommand.EditFirst` | main.py:172-178 | the loop that overwrites the first hit and breaks computes the same store and found flag as the rewrite |
| `Matcher.MessageWords` | main.py:191-192 | `user_words`, the whole words of the lower-cased message, used by `Matcher.MatchExplained` and `Matcher.MatchSharedWord` |
| `Matcher.KeyMatches` | main.py:196-197 | a key's own `\w+` words meet the message's words, the test `Matcher.MatchExplained` and `Matcher.MatchSharedWord` spell out as a shared whole word |
| `Matcher.Match` | main.py:191-199 | every answer is the text of some entry of the store, and an empty store gives no answer |
| `Matcher.MatchTexts` | main.py:193-199 | the nested loops, which stop scanning an entry's keys at its first match, collect exactly the texts of the matching entries |
| `Matcher.MatchExplained` | main.py:191-198 | every answer comes from an entry with a key that has a whole word that is also a whole word of the lower-cased message |
| `Matcher.MatchSharedWord` | main.py:191-198 | conversely, a whole word shared by a key of an entry and the lower-cased message brings that entry's text back |
| `Matcher.MatchWholeWord` | main.py:192-198 | a single-word key matches wherever it stands as a whole word in the lower-cased message |
| `Matcher.MatchIgnoresOrder` | main.py:194-199 | the answer depends only on which entries the store holds, not on their order or repetition |
| `Matcher.MatchAppend` | main.py:194-199 | the answers for two blocks of entries are the union of the answers for each block |
| `Matcher.NoAnswer` | main.py:200-206 | when no entry matches, the answer set is empty, which is the "not found" reply |
| `Matcher.SpacedKeyWordFinds` | main.py:191-198 | a lower-case one-word key set off by spaces anywhere in a message finds its entry |
| `Matcher.WholeWordsOnly` | main.py:192-197 | a lower-case one-word message that differs from a one-word key misses it, even when it contains the key |
| `Matcher.FeverFound` | main.py:191-199 | "I have a fever today" against an entry keyed `fever` gets exactly that entry's text |
| `Matcher.FeverishNotFound` | main.py:191-199 | "feverish" against an entry keyed `fever` gets nothing |
| `Matcher.SuperscriptJoinsWord` | main.py:191-199 | `²` is a word character, so the message `m²` is one word and misses an entry keyed `m` |
| `Sheet.EncodeRow` | main.py:56-67 | a well-formed entry is decoded back unchanged from the row it is saved as |
| `Sheet.DecodeRow` | main.py:56-59 | a record decodes exactly when it has both columns; the entry's keys are the normalised `Keys` cell, whatever was typed there, and its text is the `Text` cell |
| `Sheet.LoadRecords` | main.py:54-60 | `load_data` after the fetch: never more entries than records; `Sheet.LoadedFromRecords`, `Sheet.LoadSkipsIncomplete` and `Sheet.LoadSave` pin which entries it keeps |
| `Sheet.LoadedFromRecords` | main.py:54-60 | every loaded entry is the decoding of some fetched record, and the loaded store is well formed |
| `Sheet.Load` | main.py:47-60 | a failed fetch gives the empty store, and any load gives a well-formed store |
| `Sheet.SaveRecords` | main.py:66-67 | the save writes one row per entry, in store order, and each row of a well-formed entry decodes back to that entry |
| `Sheet.LoadSave` | main.py:47-67 | saving a well-formed store and loading it back gives the same store |
| `Sheet.LoadSaveLoad` | main.py:47-71 | whatever the sheet held, loading, saving and loading again gives what the first load gave |
| `Sheet.InterruptedSave` | main.py:62-69 | if a save fails after `n` rows, the next load sees exactly the first `n` entries |
| `Sheet.LoadSkipsIncomplete` | main.py:56 | a record without a `Keys` or `Text` column contributes nothing to the loaded store |
| `Session.AddPersists` | main.py:115-116 | after `/add`, reloading the saved sheet gives back the store in memory |
| `Session.DeletePersists` | main.py:144-146 | after `/delete`, reloading the saved sheet gives back the store in memory |
| `Session.EditPersists` | main.py:180-181 | after a successful `/edit`, reloading the saved sheet gives back the store in memory |
| `Session.EditThroughAlias` | main.py:165-178 | an edit made through one alias of a two-key entry replaces its text, keeps both keys, and is reported under the typed alias |
| `Session.EditedTextFoundByOtherKey` | main.py:172-198 | after an edit through one alias, a message that is exactly the other alias, itself a single word, gets exactly the new text |
| `Session.DeleteByAlias` | main.py:130-145 | `/delete b` on an entry keyed `a, b` removes the whole entry, alias `a` included, and reports `b` deleted and nothing not found |
| `Session.SingleWordFinds` | main.py:191-199 | a message that is exactly a one-word key of the only entry gets that entry's text and nothing else |
| `Session.CyrillicCapitalNormalised` | main.py:114 | the key list `Ґ` normalises to the small letter `ґ`, as `k.strip().lower()` does |
| `Session.CyrillicCapitalStored` | main.py:109-115 | `/add Ґ T` on an empty store appends the one entry keyed `ґ` with text `T` |
| `Session.CyrillicCapitalFound` | main.py:191-199 | a message `ґ` or `Ґ` finds the entry keyed `ґ`, because the message is lower-cased before matching |

## Left out

- The Flask keep-alive server and its thread (main.py:14-24) are HTTP I/O and never touch the store.
- Telegram setup, webhook removal, the reply keyboard, the `/start` text and the emoji-button prompts (main.py:29-30, 76-97, 105-108, 125-128, 161-164) are transport and interface.
- Routing is not modelled as a dispatcher: neither the `startswith` filters of the three commands (main.py:102, 122, 158) nor the catch-all filter `func=lambda m: True` of `handle_message` (main.py:189). Each command is modelled from the message slice on (`Commands.CommandArgument`).
- Replies are modelled as data: `AddReply`, `DeleteReport`, `EditReply` and the answer set. Markdown formatting and the calls that send the text are output only. This includes the empty reply `/delete` sends when it has neither list.
- The order in which answers are sent follows Python's set iteration order, which is unspecified. `Matcher.Match` returns a set.
- gspread is left out: credentials, `open_by_key`, and the calls `get_all_records`, `clear` and `append_row`. A fetch is a `Fetch` value, and a failed fetch loads as empty. A save is the list of records written after the header row. A save that fails partway is a prefix of that list (`Sheet.InterruptedSave`). The header row is implied by the column names.
- `get_all_records` turns numeric-looking cells into numbers, and `.split` on a number raises outside the `try`. Cells are modelled as strings only.
- The polling retry loop with `time.sleep` (main.py:211-218) is transport supervision.
- Concurrency is left out. The handlers share one list without locking, and the model runs commands one at a time.
- `Chars.Lower` and `Chars.IsWordChar` cover ASCII, Latin-1 (U+0000–U+00FF) and the Cyrillic blocks U+0400–U+052F, which hold the bot's language, and not all of Unicode. Within those ranges they agree with Python: `lower()` maps every Cyrillic capital, including the extended ones such as `Ґ`, `Қ`, `Ү`, `Ә` and `Ӏ`, and `\w` includes the Latin-1 numerics `²`, `³`, `¹`, `¼`, `½` and `¾`. Outside them (Greek, Latin Extended, CJK and the rest) a character is neither a word character nor lower-cased. Multi-character lower-case mappings are not modelled. `Chars.IsSpace` is Python's `isspace` exactly.
- `Sheet.InterruptedSave` covers a save that fails after the sheet was cleared. If `sheet.clear()` itself fails (main.py:64), the sheet keeps its old rows, and the model does not describe that case.
- `DeleteCommand.Within` and `DeleteCommand.Outside` state in their own contracts only which values they keep. Their counts are in `WithinCount` and `OutsideCount`, and their order is in `WithinAppend` and `OutsideAppend`. The counts are kept out of the function contracts because a multiset fact there burdens every proof that uses the filters.
- `Matcher.Match` states in its own contract only that answers come from the store. The exact characterisation is the pair `Matcher.MatchExplained` and `Matcher.MatchSharedWord`, with `Matcher.MatchTexts` tying the set to the source's loops.

=== FILE: add.dfy ===
/** `/add keys body`: append one entry and save (main.py `add_word`). */
module AddCommand {
  import opened Common
  import opened Chars
  import opened Strings
  import opened Keys
  import opened Store
  import opened Commands

  datatype AddReply =
    | AddUsage                   // the argument has no space: the format hint is sent
    | Added(keys: seq<string>)   // the entry was appended under these keys

  /** `add_word` from the argument slice on. */
  function Add(store: seq<Entry>, arg: string): (r: Outcome<AddReply>)
    ensures r.reply.AddUsage? <==> ' ' !in Strip(arg)
    ensures r.reply.AddUsage? ==> r.store == store && !r.saved
    ensures r.reply.Added? ==> r.saved && |r.store| == |store| + 1 && r.store[..|store|] == store
    ensures r.reply.Added? ==>
      exists keysPart ::
        && ' ' !in keysPart
        && keysPart + [' '] + r.store[|store|].text == Strip(arg)
        && r.store[|store|].keys == NormaliseKeys(keysPart)
        && r.reply.keys == r.store[|store|].keys
  {
    match ParseKeysAndBody(arg)
    case None => Outcome(store, false, AddUsage)
    case Some(p) =>
      var e := Entry(p.keys, p.body);
      var r := Outcome(store + [e], true, Added(p.keys));
      assert r.store[..|store|] == store;
      assert r.store[|store|] == e;
      r
  }

  /** Adding to a well-formed store leaves it well formed: the new keys come from the normaliser. */
  lemma AddKeepsWellFormed(store: seq<Entry>, arg: string)
    requires WellFormedStore(store)
    ensures WellFormedStore(Add(store, arg).store)
  {
    var r := Add(store, arg);
    if r.reply.Added? {
      var e := r.store[|store|];
      assert NormalKeys(e.keys) by {
        var keysPart :| ' ' !in keysPart && e.keys == NormaliseKeys(keysPart)
          && keysPart + [' '] + e.text == Strip(arg);
      }
      assert r.store == store + [e] by {
        assert r.store == r.store[..|store|] + [e];
      }
      AppendWellFormed(store, e);
    }
  }

  /** Appending a well-formed entry to a well-formed store keeps it well formed. */
  lemma AppendWellFormed(store: seq<Entry>, e: Entry)
    requires WellFormedStore(store) && WellFormed(e)
    ensures WellFormedStore(store + [e])
  {
    forall i | 0 <= i < |store + [e]| ensures WellFormed((store + [e])[i]) {
      if i < |store| {
        assert (store + [e])[i] == store[i];
      }
    }
  }

  /** A lone comma names no key at all. */
  lemma CommaNamesNoKey()
    ensures NormaliseKeys([',']) == []
  {
    var blank: string := [];
    assert Split([','], ',') == [blank, blank] by {
      assert [','] == [','] + blank;
      SplitCons(',', blank, ',');
    }
    assert |Strip(blank)| <= 0;
    assert CleanFragment(blank) == [];
    assert Clean([blank]) == [] + Clean([]);
    assert Clean([blank, blank]) == [] + Clean([blank]);
  }

  /**
    Nothing rejects an empty key list: `/add , text` appends an entry under
    no key, which no message and no later command can reach.
   */
  lemma AddAcceptsEmptyKeyList(store: seq<Entry>, body: string)
    requires body != [] && !IsSpace(body[|body| - 1])
    ensures Add(store, [',', ' '] + body).store == store + [Entry([], body)]
  {
    EmptyKeyListParses(body);
  }

  /** `, body` parses into the empty key list and the body. */
  lemma EmptyKeyListParses(body: string)
    requires body != [] && !IsSpace(body[|body| - 1])
    ensures ParseKeysAndBody([',', ' '] + body) == Some(Parsed([], body))
  {
    var arg := [',', ' '] + body;
    assert arg == [','] + [' '] + body;
    assert arg[0] == ',' && arg[|arg| - 1] == body[|body| - 1];
    ParseLayout([','], body);
    CommaNamesNoKey();
  }

  /** Only a literal space separates keys from body: a tab does not, so nothing is added. */
  lemma AddNeedsLiteralSpace(store: seq<Entry>)
    ensures Add(store, "a\tb").store == store
  {
    var arg := "a\tb";
    assert Trimmed(arg) && ' ' !in arg;
    StripTrimmed(arg);
    assert ParseKeysAndBody(arg).None?;
  }
}

=== FILE: chars.dfy ===
/**
  The three character classes the bot's string handling depends on:
  the whitespace that `str.strip()` removes, the case mapping of `str.lower()`,
  and the word characters matched by the regular expression `\w`.
 */
module Chars {

  /** Python's `str.isspace`: exactly the characters `str.strip()` removes. */
  predicate IsSpace(c: char) {
    var n := c as int;
    || n == 0x20
    || 0x09 <= n <= 0x0D
    || 0x1C <= n <= 0x1F
    || n == 0x85
    || n == 0xA0
    || n == 0x1680
    || 0x2000 <= n <= 0x200A
    || n == 0x2028
    || n == 0x2029
    || n == 0x202F
    || n == 0x205F
    || n == 0x3000
  }

  /**
    Upper-case letters of ASCII, Latin-1 and the Cyrillic blocks U+0400–U+052F.
    Past U+045F the Cyrillic capitals come in pairs with their small letter
    right after them, except U+04C1–U+04CD, where the capital is the odd
    member of the pair, and `Ӏ` (U+04C0), whose small letter is U+04CF.
   */
  predicate IsUpper(c: char) {
    var n := c as int;
    || 0x41 <= n <= 0x5A
    || (0xC0 <= n <= 0xDE && n != 0xD7)
    || 0x400 <= n <= 0x42F
    || (0x460 <= n <= 0x481 && n % 2 == 0)
    || (0x48A <= n <= 0x4BF && n % 2 == 0)
    || n == 0x4C0
    || (0x4C1 <= n <= 0x4CD && n % 2 == 1)
    || (0x4D0 <= n <= 0x52F && n % 2 == 0)
  }

  /** `str.lower()` on one character, for the letters `IsUpper` covers. */
  function Lower(c: char): char {
    var n := c as int;
    if 0x400 <= n <= 0x40F then (n + 0x50) as char
    else if n == 0x4C0 then 0x4CF as char
    else if n >= 0x460 && IsUpper(c) then (n + 1) as char
    else if IsUpper(c) then (n + 0x20) as char
    else c
  }

  /** The regular-expression class `\w` on `str`: letters, digits, other numerics (such as `²` and `½`) and `_`. */
  predicate IsWordChar(c: char) {
    var n := c as int;
    || '0' <= c <= '9'
    || 'A' <= c <= 'Z'
    || 'a' <= c <= 'z'
    || c == '_'
    || n == 0xAA || n == 0xB5 || n == 0xBA
    || n == 0xB2 || n == 0xB3 || n == 0xB9 || 0xBC <= n <= 0xBE
    || (0xC0 <= n <= 0xFF && n != 0xD7 && n != 0xF7)
    || 0x400 <= n <= 0x481
    || 0x48A <= n <= 0x52F
  }

  /** The facts about `Lower` that the rest of the model relies on. */
  lemma LowerFacts(c: char)
    ensures Lower(Lower(c)) == Lower(c)
    ensures IsSpace(Lower(c)) == IsSpace(c)
    ensures IsWordChar(Lower(c)) == IsWordChar(c)
    ensures Lower(c) == ',' <==> c == ','
  {
  }
}

=== FILE: commands.dfy ===
/**
  What the three editing commands share: the argument slice after the command
  word, the result shape, and the "keys, then one space, then body" parse that
  `/add` and `/edit` both perform.
 */
module Commands {
  import opened Common
  import opened Chars
  import opened Strings
  import opened Keys
  import opened Store

  /** `msg[len(prefix):]`: Python slicing past the end yields the empty string. */
  function CommandArgument(msg: string, prefix: string): (arg: string)
    ensures |msg| >= |prefix| ==> msg[..|prefix|] + arg == msg
    ensures |msg| <= |prefix| ==> arg == []
  {
    if |msg| >= |prefix| then
      assert msg[..|prefix|] + msg[|prefix|..] == msg;
      msg[|prefix|..]
    else []
  }

  /**
    The handlers fire on `startswith("/add")` but slice off `len("/add ")`:
    whatever single character follows the command word is dropped, a space or
    not, so `/addfever x` is read as the argument `ever x`.
   */
  lemma ArgumentSkipsOneChar(command: string, c: char, rest: string)
    ensures CommandArgument(command + [c] + rest, command + [' ']) == rest
  {
    var msg := command + [c] + rest;
    assert msg[|command| + 1..] == rest;
  }

  /**
    The store after a command, whether `save_data` was called, and what the
    bot replies (the reply as data, not as formatted Telegram text).
   */
  datatype Outcome<R> = Outcome(store: seq<Entry>, saved: bool, reply: R)

  /** A parsed `keys body` argument. */
  datatype Parsed = Parsed(keys: seq<string>, body: string)

  /**
    `text = arg.strip()`; fails when `" " not in text`; otherwise
    `keys_part, body = text.split(" ", 1)` with `keys_part` normalised.
    Only the literal space separates, not other whitespace.
   */
  function ParseKeysAndBody(arg: string): (r: Option<Parsed>)
    ensures r.None? <==> ' ' !in Strip(arg)
    ensures r.Some? ==>
      exists keysPart ::
        && ' ' !in keysPart
        && keysPart + [' '] + r.value.body == Strip(arg)
        && r.value.keys == NormaliseKeys(keysPart)
    ensures r.Some? ==> r.value.body != [] && !IsSpace(r.value.body[|r.value.body| - 1])
    ensures r.Some? ==> NormalKeys(r.value.keys)
  {
    var text := Strip(arg);
    match SplitOnce(text, ' ')
    case None => None
    case Some((keysPart, body)) =>
      assert text[|text| - 1] == (keysPart + [' '] + body)[|text| - 1];
      Some(Parsed(NormaliseKeys(keysPart), body))
  }

  /**
    Parsing inverts the `keys body` layout: a trimmed argument made of a
    space-free key part, one space and a body parses back into those parts.
   */
  lemma ParseLayout(keysPart: string, body: string)
    requires ' ' !in keysPart
    requires Trimmed(keysPart + [' '] + body)
    ensures ParseKeysAndBody(keysPart + [' '] + body) == Some(Parsed(NormaliseKeys(keysPart), body))
  {
    StripTrimmed(keysPart + [' '] + body);
    SplitOnceOf(keysPart, body, ' ');
  }
}

=== FILE: common.dfy ===
/** Small shared vocabulary: an optional value. */
module Common {

  /** A value that may be absent, used where the bot's code tests for presence. */
  datatype Option<+T> = None | Some(value: T)
}

=== FILE: delete.dfy ===
/**
  `/delete k1,k2,...`: remove every entry that shares a key with the
  candidates, report which candidates hit and which did not, and save
  (main.py `delete_word`).
 */
module DeleteCommand {
  import opened Strings
  import opened Keys
  import opened Store
  import opened Commands

  /**
    `[x for x in xs if x in ys]`. Its contract says which values it keeps;
    `WithinCount` says how often, `WithinAppend` in what order.
   */
  function Within(xs: seq<string>, ys: seq<string>): (r: seq<string>)
    ensures forall x :: x in r <==> x in xs && x in ys
  {
    if xs == [] then []
    else (if xs[0] in ys then [xs[0]] else []) + Within(xs[1..], ys)
  }

  /**
    `[x for x in xs if x not in ys]`. Its contract says which values it keeps;
    `OutsideCount` says how often, `OutsideAppend` in what order.
   */
  function Outside(xs: seq<string>, ys: seq<string>): (r: seq<string>)
    ensures forall x :: x in r <==> x in xs && x !in ys
  {
    if xs == [] then []
    else (if xs[0] !in ys then [xs[0]] else []) + Outside(xs[1..], ys)
  }

  /** The comprehension keeps each wanted element as often as it occurs. */
  lemma {:induction false} WithinCount(xs: seq<string>, ys: seq<string>, x: string)
    ensures multiset(Within(xs, ys))[x] == if x in ys then multiset(xs)[x] else 0
    decreases |xs|
  {
    if xs != [] {
      var head := if xs[0] in ys then [xs[0]] else [];
      var rest := Within(xs[1..], ys);
      WithinCount(xs[1..], ys, x);
      assert Within(xs, ys) == head + rest;
      assert multiset(head + rest) == multiset(head) + multiset(rest);
      MultisetCons(xs);
    }
  }

  /** The comprehension keeps each unwanted element as often as it occurs. */
  lemma {:induction false} OutsideCount(xs: seq<string>, ys: seq<string>, x: string)
    ensures multiset(Outside(xs, ys))[x] == if x in ys then 0 else multiset(xs)[x]
    decreases |xs|
  {
    if xs != [] {
      var head := if xs[0] !in ys then [xs[0]] else [];
      var rest := Outside(xs[1..], ys);
      OutsideCount(xs[1..], ys, x);
      assert Outside(xs, ys) == head + rest;
      assert multiset(head + rest) == multiset(head) + multiset(rest);
      MultisetCons(xs);
    }
  }

  /** A sequence's elements are its first element's and its rest's. */
  lemma MultisetCons<T>(s: seq<T>)
    requires s != []
    ensures multiset(s) == multiset([s[0]]) + multiset(s[1..])
  {
    assert s == [s[0]] + s[1..];
  }

  /** The filter works block by block, so it keeps the order of `xs`. */
  lemma {:induction false} WithinAppend(a: seq<string>, b: seq<string>, ys: seq<string>)
    ensures Within(a + b, ys) == Within(a, ys) + Within(b, ys)
    decreases |a|
  {
    if a == [] {
      assert a + b == b;
    } else {
      assert (a + b)[0] == a[0];
      assert (a + b)[1..] == a[1..] + b;
      WithinAppend(a[1..], b, ys);
    }
  }

  /** The filter works block by block, so it keeps the order of `xs`. */
  lemma {:induction false} OutsideAppend(a: seq<string>, b: seq<string>, ys: seq<string>)
    ensures Outside(a + b, ys) == Outside(a, ys) + Outside(b, ys)
    decreases |a|
  {
    if a == [] {
      assert a + b == b;
    } else {
      assert (a + b)[0] == a[0];
      assert (a + b)[1..] == a[1..] + b;
      OutsideAppend(a[1..], b, ys);
    }
  }

  /** The entries the loop at main.py:135-140 appends to `new_answers`. */
  function Survivors(store: seq<Entry>, cands: seq<string>): seq<Entry> {
    if store == [] then []
    else (if Hits(store[0], cands) then [] else [store[0]]) + Survivors(store[1..], cands)
  }

  /** The list `deleted` that the loop at main.py:135-140 builds, duplicates included. */
  function DeletedKeys(store: seq<Entry>, cands: seq<string>): seq<string> {
    if store == [] then []
    else
      (if Hits(store[0], cands) then Within(cands, LowerKeys(store[0].keys)) else [])
      + DeletedKeys(store[1..], cands)
  }

  /**
    The survivors are exactly the entries without a candidate key, each as
    often as in the store: whole entries go, the rest stay.
   */
  lemma {:induction false} SurvivorsContent(store: seq<Entry>, cands: seq<string>)
    ensures forall e :: multiset(Survivors(store, cands))[e] == if Hits(e, cands) then 0 else multiset(store)[e]
    ensures forall e :: e in Survivors(store, cands) <==> e in store && !Hits(e, cands)
    decreases |store|
  {
    if store != [] {
      SurvivorsContent(store[1..], cands);
      assert store == [store[0]] + store[1..];
      assert multiset(store) == multiset([store[0]]) + multiset(store[1..]);
    }
  }

  /** A candidate is reported deleted exactly when some entry of the store holds it. */
  lemma {:induction false} DeletedKeysContent(store: seq<Entry>, cands: seq<string>)
    ensures forall k :: k in DeletedKeys(store, cands) <==> k in cands && exists e :: e in store && k in LowerKeys(e.keys)
    decreases |store|
  {
    if store != [] {
      DeletedKeysContent(store[1..], cands);
      assert forall e :: e in store <==> e == store[0] || e in store[1..];
    }
  }

  /** How many entries of the store hold `k` among their lower-cased keys. */
  function Holders(store: seq<Entry>, k: string): nat {
    if store == [] then 0
    else (if k in LowerKeys(store[0].keys) then 1 else 0) + Holders(store[1..], k)
  }

  /** Distributivity, kept apart so the counting proof stays linear. */
  lemma OneMore(h: nat, c: nat)
    ensures (1 + h) * c == c + h * c
  {
  }

  /**
    `deleted` is not deduplicated: a candidate appears once per entry holding
    it (and per repetition among the candidates).
   */
  lemma {:induction false} DeletedKeysCount(store: seq<Entry>, cands: seq<string>, k: string)
    ensures multiset(DeletedKeys(store, cands))[k] == Holders(store, k) * multiset(cands)[k]
    decreases |store|
  {
    if store != [] {
      var keys0 := LowerKeys(store[0].keys);
      var head := if Hits(store[0], cands) then Within(cands, keys0) else [];
      var h, c := Holders(store[1..], k), multiset(cands)[k];
      DeletedKeysCount(store[1..], cands, k);
      HeadCount(store[0], cands, k);
      assert DeletedKeys(store, cands) == head + DeletedKeys(store[1..], cands);
      assert multiset(DeletedKeys(store, cands))[k] == multiset(head)[k] + h * c;
      if k in keys0 {
        assert multiset(head)[k] == c;
        assert Holders(store, k) == 1 + h;
        OneMore(h, c);
        assert multiset(DeletedKeys(store, cands))[k] == (1 + h) * c;
      } else {
        assert multiset(head)[k] == 0;
        assert Holders(store, k) == h;
      }
    } else {
      assert Holders(store, k) == 0;
      ZeroTimes(multiset(cands)[k]);
    }
  }

  /** Kept apart for the same reason as `OneMore`. */
  lemma ZeroTimes(c: nat)
    ensures 0 * c == 0
  {
  }

  /** What one entry adds to `deleted`: each copy of `k` among the candidates, if it holds `k`. */
  lemma HeadCount(e: Entry, cands: seq<string>, k: string)
    ensures var head := if Hits(e, cands) then Within(cands, LowerKeys(e.keys)) else [];
      multiset(head)[k] == if k in LowerKeys(e.keys) then multiset(cands)[k] else 0
  {
    WithinCount(cands, LowerKeys(e.keys), k);
    if k in LowerKeys(e.keys) && k in cands {
      assert Hits(e, cands);
    }
  }

  /** The two lists of the reply: candidates that removed something, and those that did not. */
  datatype DeleteReport = DeleteReport(deleted: seq<string>, notFound: seq<string>)

  /** `delete_word` from the argument slice on. It saves even when nothing was removed. */
  function Delete(store: seq<Entry>, arg: string): (r: Outcome<DeleteReport>)
    ensures r.saved
    ensures forall e :: e in r.store ==> e in store && !Hits(e, NormaliseKeys(Strip(arg)))
    ensures forall e :: e in store && !Hits(e, NormaliseKeys(Strip(arg))) ==> e in r.store
    ensures forall k :: k in r.reply.deleted <==>
      k in NormaliseKeys(Strip(arg)) && exists e :: e in store && k in LowerKeys(e.keys)
    ensures forall k :: k in r.reply.notFound <==> k in NormaliseKeys(Strip(arg)) && k !in r.reply.deleted
    ensures WellFormedStore(store) ==> WellFormedStore(r.store)
  {
    var cands := NormaliseKeys(Strip(arg));
    var kept := Survivors(store, cands);
    var deleted := DeletedKeys(store, cands);
    SurvivorsContent(store, cands);
    DeletedKeysContent(store, cands);
    assert WellFormedStore(store) ==> WellFormedStore(kept) by {
      if WellFormedStore(store) {
        forall i | 0 <= i < |kept| ensures WellFormed(kept[i]) {
          assert kept[i] in store;
        }
      }
    }
    Outcome(kept, true, DeleteReport(deleted, Outside(cands, deleted)))
  }

  /** Survivors of two blocks are those of the first block followed by those of the second. */
  lemma {:induction false} SurvivorsAppend(a: seq<Entry>, b: seq<Entry>, cands: seq<string>)
    ensures Survivors(a + b, cands) == Survivors(a, cands) + Survivors(b, cands)
    decreases |a|
  {
    if a == [] {
      assert a + b == b;
    } else {
      assert (a + b)[0] == a[0];
      assert (a + b)[1..] == a[1..] + b;
      SurvivorsAppend(a[1..], b, cands);
    }
  }

  /** The deleted report of two blocks is that of the first block followed by that of the second. */
  lemma {:induction false} DeletedKeysAppend(a: seq<Entry>, b: seq<Entry>, cands: seq<string>)
    ensures DeletedKeys(a + b, cands) == DeletedKeys(a, cands) + DeletedKeys(b, cands)
    decreases |a|
  {
    if a == [] {
      assert a + b == b;
    } else {
      assert (a + b)[0] == a[0];
      assert (a + b)[1..] == a[1..] + b;
      DeletedKeysAppend(a[1..], b, cands);
    }
  }

  /** The loop step: one more entry either survives or adds its matching candidates to the report. */
  lemma SurvivorsSnoc(s: seq<Entry>, e: Entry, cands: seq<string>)
    ensures Survivors(s + [e], cands) == Survivors(s, cands) + (if Hits(e, cands) then [] else [e])
  {
    SurvivorsAppend(s, [e], cands);
    assert [e][1..] == [];
  }

  /** The loop step for the report. */
  lemma DeletedKeysSnoc(s: seq<Entry>, e: Entry, cands: seq<string>)
    ensures DeletedKeys(s + [e], cands) == DeletedKeys(s, cands) + (if Hits(e, cands) then Within(cands, LowerKeys(e.keys)) else [])
  {
    DeletedKeysAppend(s, [e], cands);
    assert [e][1..] == [];
  }

  /** A store in which no entry hits keeps everything and reports nothing deleted. */
  lemma {:induction false} NothingHits(store: seq<Entry>, cands: seq<string>)
    requires forall e :: e in store ==> !Hits(e, cands)
    ensures Survivors(store, cands) == store
    ensures DeletedKeys(store, cands) == []
    decreases |store|
  {
    if store != [] {
      assert store[0] in store;
      assert forall e :: e in store[1..] ==> e in store;
      NothingHits(store[1..], cands);
      assert [store[0]] + store[1..] == store;
    }
  }

  /** Filtering out nothing keeps the whole list. */
  lemma {:induction false} OutsideEmpty(xs: seq<string>)
    ensures Outside(xs, []) == xs
    decreases |xs|
  {
    if xs != [] {
      OutsideEmpty(xs[1..]);
      assert [xs[0]] + xs[1..] == xs;
    }
  }

  /** Repeating a delete changes nothing and reports every candidate as not found. */
  lemma DeleteTwice(store: seq<Entry>, arg: string)
    ensures Delete(Delete(store, arg).store, arg).store == Delete(store, arg).store
    ensures Delete(Delete(store, arg).store, arg).reply == DeleteReport([], NormaliseKeys(Strip(arg)))
  {
    var cands := NormaliseKeys(Strip(arg));
    var once := Delete(store, arg).store;
    SurvivorsContent(store, cands);
    NothingHits(once, cands);
    OutsideEmpty(cands);
  }

  /**
    The loop at main.py:132-142, written as the source writes it: one pass
    over the store that either extends `deleted` or keeps the entry.
   */
  method DeleteEntries(store: seq<Entry>, cands: seq<string>)
    returns (kept: seq<Entry>, deleted: seq<string>, notFound: seq<string>)
    ensures kept == Survivors(store, cands)
    ensures deleted == DeletedKeys(store, cands)
    ensures notFound == Outside(cands, deleted)
  {
    kept, deleted := [], [];
    var i := 0;
    while i < |store|
      invariant 0 <= i <= |store|
      invariant kept == Survivors(store[..i], cands)
      invariant deleted == DeletedKeys(store[..i], cands)
    {
      var item := store[i];
      var itemKeysLower := LowerKeys(item.keys);
      assert store[..i + 1] == store[..i] + [item];
      SurvivorsSnoc(store[..i], item, cands);
      DeletedKeysSnoc(store[..i], item, cands);
      if exists k :: k in itemKeysLower && k in cands {
        deleted := deleted + Within(cands, itemKeysLower);
      } else {
        kept := kept + [item];
      }
      i := i + 1;
    }
    assert store[..i] == store;
    notFound := Outside(cands, deleted);
  }
}

=== FILE: edit.dfy ===
/**
  `/edit k1,k2,... body`: replace the text of the first entry, in store
  order, that shares a key with the candidates; save only when one was
  found (main.py `edit_word`).
 */
module EditCommand {
  import opened Common
  import opened Strings
  import opened Keys
  import opened Store
  import opened Commands

  /** Index of the first entry that shares a key with the candidates. */
  function FirstHit(store: seq<Entry>, cands: seq<string>): (r: Option<nat>)
    ensures r.None? <==> forall i :: 0 <= i < |store| ==> !Hits(store[i], cands)
    ensures r.Some? ==> r.value < |store| && Hits(store[r.value], cands)
    ensures r.Some? ==> forall j :: 0 <= j < r.value ==> !Hits(store[j], cands)
  {
    if store == [] then None
    else if Hits(store[0], cands) then Some(0)
    else match FirstHit(store[1..], cands)
      case None => None
      case Some(i) => Some(i + 1)
  }

  datatype EditReply =
    | EditUsage                         // the argument has no space: the format hint is sent
    | Updated(keys: seq<string>)        // an entry's text was replaced
    | EditNotFound(keys: seq<string>)   // no entry shares a key with these

  /**
    The search-and-replace half of `edit_word`, once the argument has been
    split into candidate keys and body. At most one entry changes: the first,
    in store order, that shares a key with the candidates. Its text is
    replaced wholesale; its keys, the length and every other entry, later
    hits included, stay as they were. Only a hit is saved.
   */
  function Rewrite(store: seq<Entry>, keys: seq<string>, body: string): (r: Outcome<EditReply>)
    ensures r.saved <==> r.reply.Updated?
    ensures r.reply.Updated? || r.reply.EditNotFound?
    ensures r.reply.keys == keys
    ensures r.reply.EditNotFound? ==> r.store == store && forall e :: e in store ==> !Hits(e, keys)
    ensures r.reply.Updated? ==>
      exists i ::
        && 0 <= i < |store|
        && Hits(store[i], keys)
        && (forall j :: 0 <= j < i ==> !Hits(store[j], keys))
        && r.store == store[i := Entry(store[i].keys, body)]
  {
    match FirstHit(store, keys)
    case None => Outcome(store, false, EditNotFound(keys))
    case Some(i) => Outcome(store[i := Entry(store[i].keys, body)], true, Updated(keys))
  }

  /** `edit_word` from the argument slice on. */
  function Edit(store: seq<Entry>, arg: string): (r: Outcome<EditReply>)
    ensures r.reply.EditUsage? <==> ' ' !in Strip(arg)
    ensures r.reply.EditUsage? ==> r.store == store && !r.saved
    ensures !r.reply.EditUsage? ==>
      exists keysPart, body ::
        && ' ' !in keysPart
        && keysPart + [' '] + body == Strip(arg)
        && r == Rewrite(store, NormaliseKeys(keysPart), body)
  {
    match ParseKeysAndBody(arg)
    case None => Outcome(store, false, EditUsage)
    case Some(p) => Rewrite(store, p.keys, p.body)
  }

  /** Rewriting never changes the length of the store or any entry's keys. */
  lemma RewriteKeepsKeys(store: seq<Entry>, keys: seq<string>, body: string)
    ensures |Rewrite(store, keys, body).store| == |store|
    ensures forall i :: 0 <= i < |store| ==> Rewrite(store, keys, body).store[i].keys == store[i].keys
    ensures WellFormedStore(store) ==> WellFormedStore(Rewrite(store, keys, body).store)
  {
    var r := Rewrite(store, keys, body);
    assert WellFormedStore(store) ==> WellFormedStore(r.store) by {
      if WellFormedStore(store) {
        forall j | 0 <= j < |r.store| ensures WellFormed(r.store[j]) {
          assert r.store[j].keys == store[j].keys;
          assert WellFormed(store[j]);
        }
      }
    }
  }

  /** Edit never changes the length of the store or any entry's keys. */
  lemma EditKeepsKeys(store: seq<Entry>, arg: string)
    ensures |Edit(store, arg).store| == |store|
    ensures forall i :: 0 <= i < |store| ==> Edit(store, arg).store[i].keys == store[i].keys
    ensures WellFormedStore(store) ==> WellFormedStore(Edit(store, arg).store)
  {
    match ParseKeysAndBody(arg)
    case None =>
    case Some(p) => RewriteKeepsKeys(store, p.keys, p.body);
  }

  /**
    The loop at main.py:172-178, as the source writes it: scan in order,
    overwrite the first hit's text and stop.
   */
  method EditFirst(store: seq<Entry>, keys: seq<string>, body: string)
    returns (updated: seq<Entry>, found: bool)
    ensures found == Rewrite(store, keys, body).saved
    ensures updated == Rewrite(store, keys, body).store
  {
    updated, found := store, false;
    var i := 0;
    while i < |store|
      invariant 0 <= i <= |store|
      invariant forall j :: 0 <= j < i ==> !Hits(store[j], keys)
    {
      if exists k :: k in LowerKeys(store[i].keys) && k in keys {
        updated := store[i := Entry(store[i].keys, body)];
        found := true;
        break;
      }
      i := i + 1;
    }
  }
}

=== FILE: keys.dfy ===
/**
  The key-list normaliser written inline four times in main.py: split on commas,
  strip each fragment, drop the blank ones, lower-case the rest. Order is kept
  and duplicates are not removed.
 */
module Keys {
  import opened Strings

  /** A key as the normaliser leaves it: non-empty, trimmed, lower-case and comma-free. */
  predicate NormalKey(k: string) {
    k != [] && Trimmed(k) && IsLowerCase(k) && ',' !in k
  }

  /** A key list in which every key is normal. */
  predicate NormalKeys(keys: seq<string>) {
    forall i :: 0 <= i < |keys| ==> NormalKey(keys[i])
  }

  /** One fragment of the normaliser: `[f.strip().lower()] if f.strip() else []`. */
  function CleanFragment(f: string): (ks: seq<string>)
    ensures |ks| <= 1
    ensures forall k :: k in ks ==> k != [] && Trimmed(k) && IsLowerCase(k)
    ensures ',' !in f ==> forall k :: k in ks ==> ',' !in k
  {
    var k := Strip(f);
    if k == [] then []
    else
      LowerStrFacts(k);
      StripKeepsChars(f);
      [LowerStr(k)]
  }

  /** The comprehension `[f.strip().lower() for f in frags if f.strip()]`. */
  function Clean(frags: seq<string>): seq<string> {
    if frags == [] then [] else CleanFragment(frags[0]) + Clean(frags[1..])
  }

  /** Cleaning comma-free fragments yields normal keys, at most one per fragment. */
  lemma {:induction false} CleanIsNormal(frags: seq<string>)
    requires forall f :: f in frags ==> ',' !in f
    ensures NormalKeys(Clean(frags))
    ensures |Clean(frags)| <= |frags|
    decreases |frags|
  {
    if frags != [] {
      assert forall f :: f in frags[1..] ==> f in frags;
      CleanIsNormal(frags[1..]);
      var head := CleanFragment(frags[0]);
      var rest := Clean(frags[1..]);
      assert Clean(frags) == head + rest;
      forall i | 0 <= i < |head + rest|
        ensures NormalKey((head + rest)[i])
      {
        if i < |head| {
          assert (head + rest)[i] in head;
        } else {
          assert (head + rest)[i] == rest[i - |head|];
        }
      }
    }
  }

  /** The key list of a comma-separated string. */
  function NormaliseKeys(raw: string): (keys: seq<string>)
    ensures NormalKeys(keys)
    ensures |keys| <= |Split(raw, ',')|
  {
    CleanIsNormal(Split(raw, ','));
    Clean(Split(raw, ','))
  }

  /** Cleaning works fragment by fragment, so it distributes over concatenation. */
  lemma {:induction false} CleanAppend(f1: seq<string>, f2: seq<string>)
    ensures Clean(f1 + f2) == Clean(f1) + Clean(f2)
    decreases |f1|
  {
    if f1 != [] {
      assert (f1 + f2)[0] == f1[0];
      assert (f1 + f2)[1..] == f1[1..] + f2;
      CleanAppend(f1[1..], f2);
      var h := CleanFragment(f1[0]);
      assert Clean(f1 + f2) == h + Clean(f1[1..] + f2);
    } else {
      assert f1 + f2 == f2;
    }
  }

  /**
    Order is preserved and nothing is deduplicated: the keys of `a,b` are the keys
    of `a` followed by the keys of `b`.
   */
  lemma NormaliseAppend(a: string, b: string)
    ensures NormaliseKeys(a + [','] + b) == NormaliseKeys(a) + NormaliseKeys(b)
  {
    SplitAround(a, b, ',');
    CleanAppend(Split(a, ','), Split(b, ','));
  }

  /** A comma-free fragment yields its stripped, lower-cased self, or nothing when blank. */
  lemma NormaliseFragment(raw: string)
    requires ',' !in raw
    ensures Strip(raw) == [] ==> NormaliseKeys(raw) == []
    ensures Strip(raw) != [] ==> NormaliseKeys(raw) == [LowerStr(Strip(raw))]
  {
    SplitNoSeparator(raw, ',');
    assert [raw][1..] == [];
    assert Clean([raw]) == CleanFragment(raw) + Clean([]);
  }

  /** A normal key is its own cleaned fragment. */
  lemma CleanFragmentNormal(k: string)
    requires NormalKey(k)
    ensures CleanFragment(k) == [k]
  {
    StripTrimmed(k);
    LowerStrFacts(k);
  }

  /** Normal keys pass through cleaning unchanged. */
  lemma {:induction false} CleanNormal(keys: seq<string>)
    requires NormalKeys(keys)
    ensures Clean(keys) == keys
    decreases |keys|
  {
    if keys != [] {
      var rest := keys[1..];
      assert NormalKeys(rest) by {
        forall i | 0 <= i < |rest| ensures NormalKey(rest[i]) {
          assert rest[i] == keys[i + 1];
        }
      }
      CleanNormal(rest);
      assert NormalKey(keys[0]);
      CleanFragmentNormal(keys[0]);
      assert Clean(keys) == CleanFragment(keys[0]) + Clean(rest);
      assert [keys[0]] + rest == keys;
    }
  }

  /** Normal keys are comma-free, so they are the pieces their comma join splits into. */
  lemma SplitNormalJoin(keys: seq<string>)
    requires NormalKeys(keys) && keys != []
    ensures Split(Join(keys, ','), ',') == keys
  {
    forall p | p in keys ensures ',' !in p {
      var i :| 0 <= i < |keys| && keys[i] == p;
      assert NormalKey(keys[i]);
    }
    SplitJoin(keys, ',');
  }

  /** Joining normal keys with commas and normalising again gives back the same list. */
  lemma NormaliseJoin(keys: seq<string>)
    requires NormalKeys(keys)
    ensures NormaliseKeys(Join(keys, ',')) == keys
  {
    if keys == [] {
      assert Split([], ',') == [[]];
      assert Clean([[]]) == CleanFragment([]) + Clean([]);
    } else {
      SplitNormalJoin(keys);
      CleanNormal(keys);
    }
  }

  /** Normalising is idempotent through a comma join. */
  lemma NormaliseIdempotent(raw: string)
    ensures NormaliseKeys(Join(NormaliseKeys(raw), ',')) == NormaliseKeys(raw)
  {
    NormaliseJoin(NormaliseKeys(raw));
  }
}

=== FILE: matcher.dfy ===
/**
  Free-text lookup (main.py `handle_message`): the texts of all entries having
  a key that shares a word with the lower-cased message.
 */
module Matcher {
  import opened Strings
  import opened Tokens
  import opened Store

  /** `set(re.findall(r'\w+', message.lower()))` */
  function MessageWords(msg: string): set<string> {
    TokenSet(LowerStr(msg))
  }

  /** `set(re.findall(r'\w+', key)) & user_words` is non-empty. */
  predicate KeyMatches(key: string, words: set<string>) {
    TokenSet(key) * words != {}
  }

  /** Some key of the entry shares a word with the message. */
  predicate EntryMatches(e: Entry, words: set<string>) {
    exists k :: k in e.keys && KeyMatches(k, words)
  }

  /** `found_texts`: one text per matching entry, identical texts once. */
  function Match(store: seq<Entry>, msg: string): (found: set<string>)
    ensures forall t :: t in found ==> exists e :: e in store && e.text == t
    ensures store == [] ==> found == {}
  {
    set e | e in store && EntryMatches(e, MessageWords(msg)) :: e.text
  }

  /**
    The loops at main.py:193-199, as the source writes them: every entry is
    visited, and the scan of an entry's keys stops at its first matching key.
   */
  method MatchTexts(store: seq<Entry>, msg: string) returns (found: set<string>)
    ensures found == Match(store, msg)
  {
    var userWords := MessageWords(msg);
    found := {};
    for i := 0 to |store|
      invariant forall t :: t in found <==> exists e :: e in store[..i] && EntryMatches(e, userWords) && e.text == t
    {
      var item := store[i];
      assert store[..i + 1] == store[..i] + [item];
      for j := 0 to |item.keys|
        invariant forall t :: t in found <==> exists e :: e in store[..i] && EntryMatches(e, userWords) && e.text == t
        invariant forall m :: 0 <= m < j ==> !KeyMatches(item.keys[m], userWords)
      {
        var keyWords := TokenSet(item.keys[j]);
        if keyWords * userWords != {} {
          found := found + {item.text};
          assert EntryMatches(item, userWords) by { assert KeyMatches(item.keys[j], userWords); }
          break;
        }
      }
    }
    assert store[..|store|] == store;
  }

  /** Matching reads the entries as a set: reordering or repeating entries changes nothing. */
  lemma MatchIgnoresOrder(s1: seq<Entry>, s2: seq<Entry>, msg: string)
    requires forall e :: e in s1 <==> e in s2
    ensures Match(s1, msg) == Match(s2, msg)
  {
  }

  /** The matches of two blocks of entries are the union of their matches. */
  lemma MatchAppend(s1: seq<Entry>, s2: seq<Entry>, msg: string)
    ensures Match(s1 + s2, msg) == Match(s1, msg) + Match(s2, msg)
  {
  }

  /**
    The converse of `MatchExplained`: a word that stands whole both in some key
    of an entry and in the lower-cased message brings that entry's text back.
   */
  lemma MatchSharedWord(store: seq<Entry>, msg: string, e: Entry, k: string, a: int, b: int, i: int, j: int)
    requires e in store && k in e.keys
    requires TokenAt(k, a, b) && TokenAt(LowerStr(msg), i, j)
    requires k[a..b] == LowerStr(msg)[i..j]
    ensures e.text in Match(store, msg)
  {
    TokensComplete(k, a, b);
    TokensComplete(LowerStr(msg), i, j);
    assert k[a..b] in TokenSet(k) * MessageWords(msg);
    assert KeyMatches(k, MessageWords(msg));
  }

  /**
    A key that is a single word matches whenever that word stands as a whole
    word in the lower-cased message.
   */
  lemma MatchWholeWord(store: seq<Entry>, msg: string, e: Entry, k: string, i: int, j: int)
    requires e in store && k in e.keys
    requires k != [] && AllWord(k)
    requires TokenAt(LowerStr(msg), i, j) && LowerStr(msg)[i..j] == k
    ensures e.text in Match(store, msg)
  {
    assert k[0..|k|] == k;
    assert TokenAt(k, 0, |k|);
    MatchSharedWord(store, msg, e, k, 0, |k|, i, j);
  }

  /**
    Every answer is explained by a word that stands whole both in one of the
    entry's keys and in the lower-cased message.
   */
  lemma MatchExplained(store: seq<Entry>, msg: string, t: string)
    returns (e: Entry, k: string, w: string)
    requires t in Match(store, msg)
    ensures e in store && e.text == t && k in e.keys
    ensures exists i, j :: TokenAt(k, i, j) && k[i..j] == w
    ensures exists i, j :: TokenAt(LowerStr(msg), i, j) && LowerStr(msg)[i..j] == w
  {
    e :| e in store && EntryMatches(e, MessageWords(msg)) && e.text == t;
    k :| k in e.keys && KeyMatches(k, MessageWords(msg));
    w :| w in TokenSet(k) * MessageWords(msg);
    TokenSetIsWholeWords(k, w);
    TokenSetIsWholeWords(LowerStr(msg), w);
  }

  /** When no entry matches, the answer set is empty ("no answer found"). */
  lemma NoAnswer(store: seq<Entry>, msg: string)
    requires forall e :: e in store ==> !EntryMatches(e, MessageWords(msg))
    ensures Match(store, msg) == {}
  {
  }

  /** A message made of one lower-case word has that word as its only word. */
  lemma OneWordMessage(w: string)
    requires w != [] && AllWord(w) && IsLowerCase(w)
    ensures MessageWords(w) == {w}
  {
    LowerStrFacts(w);
    WordTokens(w);
  }

  /** A lower-case key word set off by spaces anywhere in the message finds its entry. */
  lemma SpacedKeyWordFinds(store: seq<Entry>, e: Entry, k: string, pre: string, post: string)
    requires e in store && k in e.keys
    requires k != [] && AllWord(k) && IsLowerCase(k)
    ensures e.text in Match(store, pre + [' '] + k + [' '] + post)
  {
    var msg := pre + [' '] + k + [' '] + post;
    var low := LowerStr(msg);
    var i, j := |pre| + 1, |pre| + 1 + |k|;
    assert low[i..j] == k by {
      forall m | 0 <= m < |k| ensures low[i..j][m] == k[m] {
        assert msg[i + m] == k[m];
      }
    }
    assert msg[i - 1] == ' ' && msg[j] == ' ';
    assert AllWord(low[i..j]);
    assert TokenAt(low, i, j);
    MatchWholeWord(store, msg, e, k, i, j);
  }

  /**
    Matching goes by whole words only: a one-word message that is not the
    one-word key misses it, even when it contains the key as a substring.
   */
  lemma WholeWordsOnly(k: string, w: string, text: string)
    requires k != [] && AllWord(k)
    requires w != [] && AllWord(w) && IsLowerCase(w)
    requires k != w
    ensures Match([Entry([k], text)], w) == {}
  {
    OneWordMessage(w);
    WordTokens(k);
    assert TokenSet(k) * MessageWords(w) == {};
    assert !EntryMatches(Entry([k], text), MessageWords(w));
    NoAnswer([Entry([k], text)], w);
  }

  /** The knowledge base of the end-to-end example: one entry keyed `fever`. */
  function FeverStore(): seq<Entry> {
    [Entry(["fever"], "Give antipyretic.")]
  }

  /** A message mentioning the key as a word gets the entry's text back, and nothing else. */
  lemma FeverFound()
    ensures Match(FeverStore(), "I have a fever today") == {"Give antipyretic."}
  {
    assert "I have a" + [' '] + "fever" + [' '] + "today" == "I have a fever today";
    assert AllWord("fever") && IsLowerCase("fever");
    SpacedKeyWordFinds(FeverStore(), FeverStore()[0], "fever", "I have a", "today");
  }

  /** A message that only contains the key inside a longer word gets nothing. */
  lemma FeverishNotFound()
    ensures Match(FeverStore(), "feverish") == {}
  {
    assert AllWord("fever");
    assert AllWord("feverish") && IsLowerCase("feverish");
    assert "fever" != "feverish";
    WholeWordsOnly("fever", "feverish", "Give antipyretic.");
  }

  /**
    Numeric characters such as `²` are word characters, so `m²` is one word
    and the key `m` does not match it.
   */
  lemma SuperscriptJoinsWord(text: string)
    ensures Match([Entry(["m"], text)], "m²") == {}
  {
    assert AllWord("m");
    assert AllWord("m²") && IsLowerCase("m²");
    assert "m" != "m²";
    WholeWordsOnly("m", "m²", text);
  }
}

=== FILE: session.dfy ===
/**
  How the pieces fit together over a session: what a command saves is what
  the next start-up loads, and a change made through one key is seen
  through every key of the same entry.
 */
module Session {
  import opened Common
  import opened Chars
  import opened Strings
  import opened Keys
  import opened Store
  import opened Commands
  import opened AddCommand
  import opened DeleteCommand
  import opened EditCommand
  import opened Tokens
  import opened Matcher
  import opened Sheet

  /** After `/add`, reloading what was saved gives back the store in memory. */
  lemma AddPersists(store: seq<Entry>, arg: string)
    requires WellFormedStore(store)
    ensures Add(store, arg).saved ==> Load(Fetched(SaveRecords(Add(store, arg).store))) == Add(store, arg).store
  {
    AddKeepsWellFormed(store, arg);
    LoadSave(Add(store, arg).store);
  }

  /** After `/delete`, reloading what was saved gives back the store in memory. */
  lemma DeletePersists(store: seq<Entry>, arg: string)
    requires WellFormedStore(store)
    ensures Load(Fetched(SaveRecords(Delete(store, arg).store))) == Delete(store, arg).store
  {
    LoadSave(Delete(store, arg).store);
  }

  /** After a successful `/edit`, reloading what was saved gives back the store in memory. */
  lemma EditPersists(store: seq<Entry>, arg: string)
    requires WellFormedStore(store)
    ensures Edit(store, arg).saved ==> Load(Fetched(SaveRecords(Edit(store, arg).store))) == Edit(store, arg).store
  {
    EditKeepsKeys(store, arg);
    LoadSave(Edit(store, arg).store);
  }

  /** A normal key typed on its own normalises to itself. */
  lemma OneKey(k: string)
    requires NormalKey(k)
    ensures Strip(k) == k
    ensures NormaliseKeys(k) == [k]
  {
    StripTrimmed(k);
    LowerStrFacts(k);
    NormaliseFragment(k);
  }

  /** Two normal keys form a normal key list, which lower-casing leaves alone. */
  lemma PairNormal(a: string, b: string)
    requires NormalKey(a) && NormalKey(b)
    ensures NormalKeys([a, b]) && LowerKeys([a, b]) == [a, b]
  {
    var keys := [a, b];
    assert NormalKeys(keys) by {
      forall i | 0 <= i < |keys| ensures NormalKey(keys[i]) {
      }
    }
    LowerKeysNormal(keys);
  }

  /** An entry holding the normal keys `a` and `b` is hit through either of them. */
  lemma AliasHits(a: string, b: string, text: string, k: string)
    requires NormalKey(a) && NormalKey(b)
    requires k == a || k == b
    ensures Hits(Entry([a, b], text), [k])
  {
    PairNormal(a, b);
    assert k in LowerKeys([a, b]);
  }

  /** `/edit a body` parses into the single candidate `a` and the body. */
  lemma EditArgumentParses(a: string, body: string)
    requires NormalKey(a) && ' ' !in a
    requires body != [] && !IsSpace(body[|body| - 1])
    ensures ParseKeysAndBody(a + [' '] + body) == Some(Parsed([a], body))
  {
    OneKey(a);
    var arg := a + [' '] + body;
    assert arg[0] == a[0] && arg[|arg| - 1] == body[|body| - 1];
    ParseLayout(a, body);
  }

  /** Rewriting through the alias `a` replaces the one entry's text. */
  lemma RewriteThroughAlias(a: string, b: string, before: string, body: string)
    requires NormalKey(a) && NormalKey(b)
    ensures Rewrite([Entry([a, b], before)], [a], body) == Outcome([Entry([a, b], body)], true, Updated([a]))
  {
    AliasHits(a, b, before, a);
    var store := [Entry([a, b], before)];
    assert FirstHit(store, [a]) == Some(0);
    assert store[0 := Entry(store[0].keys, body)] == [Entry([a, b], body)];
  }

  /**
    An edit made through one alias of an entry rewrites that entry's text,
    keeps both aliases and reports the alias that was typed.
   */
  lemma EditThroughAlias(a: string, b: string, before: string, body: string)
    requires NormalKey(a) && ' ' !in a && NormalKey(b)
    requires body != [] && !IsSpace(body[|body| - 1])
    ensures Edit([Entry([a, b], before)], a + [' '] + body).store == [Entry([a, b], body)]
    ensures Edit([Entry([a, b], before)], a + [' '] + body).reply == Updated([a])
  {
    EditArgumentParses(a, body);
    RewriteThroughAlias(a, b, before, body);
  }

  /**
    After an edit made through one alias of an entry, a message that is exactly
    the entry's other alias, a single word, gets the new text and nothing else.
   */
  lemma EditedTextFoundByOtherKey(a: string, b: string, before: string, body: string)
    requires NormalKey(a) && ' ' !in a && NormalKey(b) && AllWord(b)
    requires body != [] && !IsSpace(body[|body| - 1])
    ensures Match(Edit([Entry([a, b], before)], a + [' '] + body).store, b) == {body}
  {
    EditThroughAlias(a, b, before, body);
    SingleWordFinds(Entry([a, b], body), b);
  }

  /** A key typed with a Cyrillic capital (Ukrainian `Ґ`) is stored lower-cased. */
  lemma CyrillicCapitalStored()
    ensures Add([], "\U{0490} T").store == [Entry(["\U{0491}"], "T")]
  {
    CyrillicCapitalParses();
    assert Add([], "\U{0490} T").store == [] + [Entry(["\U{0491}"], "T")];
  }

  /** `Ґ T` parses into the lower-cased key `ґ` and the body `T`. */
  lemma CyrillicCapitalParses()
    ensures ParseKeysAndBody("\U{0490} T") == Some(Parsed(["\U{0491}"], "T"))
  {
    var upper := "\U{0490}";
    var arg := upper + [' '] + "T";
    assert arg == "\U{0490} T";
    assert arg[0] == '\U{0490}' && arg[|arg| - 1] == 'T';
    ParseLayout(upper, "T");
    CyrillicCapitalNormalised();
  }

  /** The key list `Ґ` normalises to the small letter `ґ`. */
  lemma CyrillicCapitalNormalised()
    ensures NormaliseKeys("\U{0490}") == ["\U{0491}"]
  {
    var upper := "\U{0490}";
    StripTrimmed(upper);
    NormaliseFragment(upper);
    assert LowerStr(upper) == "\U{0491}" by {
      assert |LowerStr(upper)| == 1 && LowerStr(upper)[0] == Lower(upper[0]);
    }
  }

  /** A message holding a Cyrillic letter in either case finds the entry stored under the small letter. */
  lemma CyrillicCapitalFound()
    ensures Match([Entry(["\U{0491}"], "T")], "\U{0491}") == {"T"}
    ensures Match([Entry(["\U{0491}"], "T")], "\U{0490}") == {"T"}
  {
    var upper, lower := "\U{0490}", "\U{0491}";
    var e := Entry([lower], "T");
    assert AllWord(lower) && IsLowerCase(lower);
    SingleWordFinds(e, lower);
    assert LowerStr(upper) == lower;
    assert LowerStr(upper)[0..1] == lower;
    assert TokenAt(LowerStr(upper), 0, 1);
    MatchWholeWord([e], upper, e, lower, 0, 1);
  }

  /** A message that is exactly one word-like key of the only entry gets that entry's text. */
  lemma SingleWordFinds(e: Entry, k: string)
    requires k in e.keys && k != [] && AllWord(k) && IsLowerCase(k)
    ensures Match([e], k) == {e.text}
  {
    LowerStrFacts(k);
    assert LowerStr(k)[0..|k|] == k;
    assert TokenAt(LowerStr(k), 0, |k|);
    MatchWholeWord([e], k, e, k, 0, |k|);
  }

  /** The delete loop over the alias entry: it goes, and `b` is recorded once. */
  lemma DeleteLoopOnAlias(a: string, b: string, text: string)
    requires NormalKey(a) && NormalKey(b)
    ensures Survivors([Entry([a, b], text)], [b]) == []
    ensures DeletedKeys([Entry([a, b], text)], [b]) == [b]
  {
    AliasHits(a, b, text, b);
    PairNormal(a, b);
    var store := [Entry([a, b], text)];
    assert store[1..] == [];
    assert [b][1..] == [];
    assert Within([b], [a, b]) == [b];
  }

  /**
    `/delete b` on an entry keyed `a, b` removes the whole entry, alias `a`
    included, and reports only `b` as deleted.
   */
  lemma DeleteByAlias(a: string, b: string, text: string)
    requires NormalKey(a) && NormalKey(b)
    ensures Delete([Entry([a, b], text)], b).store == []
    ensures Delete([Entry([a, b], text)], b).reply == DeleteReport([b], [])
  {
    OneKey(b);
    DeleteLoopOnAlias(a, b, text);
    assert [b][1..] == [];
    assert Outside([b], [b]) == [];
  }
}

=== FILE: sheet.dfy ===
/**
  Persistence (main.py `load_data` / `save_data`): each entry is one sheet
  row with a `Keys` column (the keys joined by commas) and a `Text` column.
  The sheet is seen as the list of records `get_all_records()` returns.
 */
module Sheet {
  import opened Common
  import opened Strings
  import opened Keys
  import opened Store

  /** One record of `get_all_records()`: column header to cell text. */
  type Record = map<string, string>

  const KeysColumn: string := "Keys"
  const TextColumn: string := "Text"

  /**
    The row `save_data` appends for an entry: `[",".join(keys), text]`.
    A well-formed entry is read back from it unchanged.
   */
  function EncodeRow(e: Entry): (row: Record)
    ensures KeysColumn in row && TextColumn in row
    ensures row[KeysColumn] == Join(e.keys, ',') && row[TextColumn] == e.text
    ensures WellFormed(e) ==> DecodeRow(row) == Some(e)
  {
    assert KeysColumn[0] != TextColumn[0];
    var row := map[KeysColumn := Join(e.keys, ','), TextColumn := e.text];
    assert WellFormed(e) ==> DecodeRow(row) == Some(e) by {
      if WellFormed(e) { NormaliseJoin(e.keys); }
    }
    row
  }

  /**
    The entry `load_data` builds from a record: the `Keys` cell normalised,
    the `Text` cell as it is; records missing a column are skipped.
   */
  function DecodeRow(row: Record): (r: Option<Entry>)
    ensures r.Some? <==> KeysColumn in row && TextColumn in row
    ensures r.Some? ==> r.value.keys == NormaliseKeys(row[KeysColumn])
    ensures r.Some? ==> WellFormed(r.value) && r.value.text == row[TextColumn]
  {
    if KeysColumn in row && TextColumn in row then
      Some(Entry(NormaliseKeys(row[KeysColumn]), row[TextColumn]))
    else None
  }

  /** The loop of `load_data` over the fetched records. */
  function LoadRecords(rows: seq<Record>): (store: seq<Entry>)
    ensures |store| <= |rows|
  {
    if rows == [] then []
    else
      match DecodeRow(rows[0])
      case None => LoadRecords(rows[1..])
      case Some(e) => [e] + LoadRecords(rows[1..])
  }

  /** Every loaded entry is the decoding of some fetched record, and so is well formed. */
  lemma {:induction false} LoadedFromRecords(rows: seq<Record>)
    ensures forall e :: e in LoadRecords(rows) ==> exists i :: 0 <= i < |rows| && DecodeRow(rows[i]) == Some(e)
    ensures WellFormedStore(LoadRecords(rows))
    decreases |rows|
  {
    if rows != [] {
      var rest := LoadRecords(rows[1..]);
      LoadedFromRecords(rows[1..]);
      forall e | e in LoadRecords(rows)
        ensures exists i :: 0 <= i < |rows| && DecodeRow(rows[i]) == Some(e)
      {
        if e in rest {
          var i :| 0 <= i < |rows[1..]| && DecodeRow(rows[1..][i]) == Some(e);
          assert rows[1..][i] == rows[i + 1];
        } else {
          assert DecodeRow(rows[0]) == Some(e);
        }
      }
      var store := LoadRecords(rows);
      forall i | 0 <= i < |store| ensures WellFormed(store[i]) {
        assert store[i] in store;
      }
    }
  }

  /** The outcome of `sheet.get_all_records()`. */
  datatype Fetch = FetchFailed | Fetched(rows: seq<Record>)

  /** `load_data`: a failed fetch yields an empty knowledge base. */
  function Load(f: Fetch): (store: seq<Entry>)
    ensures f.FetchFailed? ==> store == []
    ensures WellFormedStore(store)
  {
    match f
    case FetchFailed => []
    case Fetched(rows) => LoadedFromRecords(rows); LoadRecords(rows)
  }

  /** The records `save_data` writes after the header row, one per entry, in order. */
  function SaveRecords(store: seq<Entry>): (rows: seq<Record>)
    ensures |rows| == |store|
    ensures forall i :: 0 <= i < |store| ==> rows[i] == EncodeRow(store[i])
    ensures forall i :: 0 <= i < |store| && WellFormed(store[i]) ==> DecodeRow(rows[i]) == Some(store[i])
  {
    seq(|store|, i requires 0 <= i < |store| => EncodeRow(store[i]))
  }

  /** Saving a well-formed store and loading it back gives the same store. */
  lemma {:induction false} LoadSave(store: seq<Entry>)
    requires WellFormedStore(store)
    ensures LoadRecords(SaveRecords(store)) == store
    decreases |store|
  {
    if store != [] {
      WellFormedTail(store);
      LoadSave(store[1..]);
      LoadSaveStep(store);
    }
  }

  /** The round trip extends from the rest of a store to the whole when its first entry is well formed. */
  lemma LoadSaveStep(store: seq<Entry>)
    requires store != [] && WellFormed(store[0])
    requires LoadRecords(SaveRecords(store[1..])) == store[1..]
    ensures LoadRecords(SaveRecords(store)) == store
  {
    var rows := SaveRecords(store);
    SaveCons(store);
    LoadCons(rows, store[0]);
    HeadTail(store);
  }

  /** A non-empty sequence is its first element followed by the rest. */
  lemma HeadTail<T>(s: seq<T>)
    requires s != []
    ensures [s[0]] + s[1..] == s
  {
  }

  /** A suffix of a well-formed store is well formed. */
  lemma WellFormedTail(store: seq<Entry>)
    requires WellFormedStore(store) && store != []
    ensures WellFormedStore(store[1..]) && WellFormed(store[0])
  {
    forall i | 0 <= i < |store[1..]| ensures WellFormed(store[1..][i]) {
      assert store[1..][i] == store[i + 1];
    }
  }

  /** Saving a non-empty store writes its first entry, then the rest. */
  lemma SaveCons(store: seq<Entry>)
    requires store != []
    ensures SaveRecords(store)[0] == EncodeRow(store[0])
    ensures SaveRecords(store)[1..] == SaveRecords(store[1..])
  {
  }

  /** One step of `LoadRecords` when the first record decodes. */
  lemma LoadCons(rows: seq<Record>, e: Entry)
    requires rows != [] && DecodeRow(rows[0]) == Some(e)
    ensures LoadRecords(rows) == [e] + LoadRecords(rows[1..])
  {
  }

  /** Whatever the sheet held, load, save, load gives what the first load gave. */
  lemma LoadSaveLoad(rows: seq<Record>)
    ensures LoadRecords(SaveRecords(LoadRecords(rows))) == LoadRecords(rows)
  {
    LoadedFromRecords(rows);
    LoadSave(LoadRecords(rows));
  }

  /**
    `save_data` clears the sheet and appends row by row; if it fails after
    `n` rows, the next load sees only the first `n` entries.
   */
  lemma InterruptedSave(store: seq<Entry>, n: nat)
    requires WellFormedStore(store)
    requires n <= |store|
    ensures LoadRecords(SaveRecords(store)[..n]) == store[..n]
  {
    assert WellFormedStore(store[..n]) by {
      forall i | 0 <= i < n ensures WellFormed(store[..n][i]) {
        assert store[..n][i] == store[i];
      }
    }
    assert SaveRecords(store)[..n] == SaveRecords(store[..n]);
    LoadSave(store[..n]);
  }

  /** A record without both columns contributes nothing to the loaded store. */
  lemma LoadSkipsIncomplete(row: Record, rows: seq<Record>)
    requires KeysColumn !in row || TextColumn !in row
    ensures LoadRecords([row] + rows) == LoadRecords(rows)
  {
    assert ([row] + rows)[1..] == rows;
  }
}

=== FILE: store.dfy ===
/**
  The in-memory knowledge base of main.py: a list of `{keys, text}` records,
  and the "shares a key" test that delete and edit use to pick records.
 */
module Store {
  import opened Strings
  import opened Keys

  /** One knowledge-base record: its aliases and the text sent back on a match. */
  datatype Entry = Entry(keys: seq<string>, text: string)

  /** `[k.lower() for k in item['keys']]` */
  function LowerKeys(keys: seq<string>): seq<string> {
    seq(|keys|, i requires 0 <= i < |keys| => LowerStr(keys[i]))
  }

  /** Some lower-cased key of `e` is among the candidates. */
  predicate Hits(e: Entry, cands: seq<string>) {
    exists k :: k in LowerKeys(e.keys) && k in cands
  }

  /** An entry as the normaliser builds it. */
  predicate WellFormed(e: Entry) {
    NormalKeys(e.keys)
  }

  /** A store whose every entry is well formed. */
  predicate WellFormedStore(store: seq<Entry>) {
    forall i :: 0 <= i < |store| ==> WellFormed(store[i])
  }

  /** Lower-casing normal keys changes nothing. */
  lemma LowerKeysNormal(keys: seq<string>)
    requires NormalKeys(keys)
    ensures LowerKeys(keys) == keys
  {
    forall i | 0 <= i < |keys| ensures LowerKeys(keys)[i] == keys[i] {
      LowerStrFacts(keys[i]);
    }
  }
}

=== FILE: strings.dfy ===
/**
  The Python string primitives the bot uses, on `seq<char>`:
  `strip()`, `lower()`, `split(sep)`, `sep.join(parts)` and `split(" ", 1)`.
 */
module Strings {
  import opened Common
  import opened Chars

  /** Every character of `s` is whitespace. */
  predicate AllSpace(s: string) {
    forall i :: 0 <= i < |s| ==> IsSpace(s[i])
  }

  /** `s` has no leading and no trailing whitespace. */
  predicate Trimmed(s: string) {
    s == [] || (!IsSpace(s[0]) && !IsSpace(s[|s| - 1]))
  }

  /** `s` is a fixed point of `lower()`. */
  predicate IsLowerCase(s: string) {
    forall i :: 0 <= i < |s| ==> Lower(s[i]) == s[i]
  }

  /** Where `lstrip()` cuts, scanning from `p`: the first non-whitespace position, or `|s|`. */
  function SkipSpace(s: string, p: nat): (q: nat)
    requires p <= |s|
    ensures p <= q <= |s|
    ensures forall m :: p <= m < q ==> IsSpace(s[m])
    ensures q == |s| || !IsSpace(s[q])
    decreases |s| - p
  {
    if p < |s| && IsSpace(s[p]) then SkipSpace(s, p + 1) else p
  }

  /** Where `rstrip()` cuts `s[lo..q]`: just past its last non-whitespace character, or `lo`. */
  function BackSpace(s: string, lo: nat, q: nat): (e: nat)
    requires lo <= q <= |s|
    ensures lo <= e <= q
    ensures forall m :: e <= m < q ==> IsSpace(s[m])
    ensures e == lo || !IsSpace(s[e - 1])
    decreases q - lo
  {
    if lo < q && IsSpace(s[q - 1]) then BackSpace(s, lo, q - 1) else q
  }

  /** How many whitespace characters `lstrip()` removes from the front of `s`. */
  function LeadingSpace(s: string): (n: nat)
    ensures n <= |s| && AllSpace(s[..n])
  {
    SkipSpace(s, 0)
  }

  /**
    `s.strip()`: the slice of `s` that starts after its leading whitespace,
    with whitespace on both sides of it, and trimmed itself.
   */
  function Strip(s: string): (r: string)
    ensures LeadingSpace(s) + |r| <= |s|
    ensures r == s[LeadingSpace(s)..LeadingSpace(s) + |r|]
    ensures AllSpace(s[LeadingSpace(s) + |r|..])
    ensures Trimmed(r)
  {
    var i := SkipSpace(s, 0);
    var e := BackSpace(s, i, |s|);
    assert e > i ==> !IsSpace(s[i]) && !IsSpace(s[e - 1]);
    s[i..e]
  }

  /** Stripping only removes characters: every character of the result occurs in `s`. */
  lemma StripKeepsChars(s: string)
    ensures forall c :: c in Strip(s) ==> c in s
  {
    var r := Strip(s);
    var i := LeadingSpace(s);
    forall c | c in r ensures c in s {
      var k :| 0 <= k < |r| && r[k] == c;
      assert s[i + k] == c;
    }
  }

  /** Stripping a string that is already trimmed gives it back. */
  lemma StripTrimmed(s: string)
    requires Trimmed(s)
    ensures Strip(s) == s
  {
  }

  /** `s.lower()`, one character at a time. */
  function LowerStr(s: string): string {
    seq(|s|, i requires 0 <= i < |s| => Lower(s[i]))
  }

  /** Lower-casing keeps a string's trimmedness and its commas, and is idempotent. */
  lemma LowerStrFacts(s: string)
    ensures IsLowerCase(LowerStr(s))
    ensures Trimmed(s) ==> Trimmed(LowerStr(s))
    ensures ',' !in s ==> ',' !in LowerStr(s)
    ensures IsLowerCase(s) ==> LowerStr(s) == s
  {
    forall i | 0 <= i < |s|
      ensures Lower(LowerStr(s)[i]) == LowerStr(s)[i]
      ensures IsSpace(LowerStr(s)[i]) == IsSpace(s[i])
      ensures LowerStr(s)[i] == ',' <==> s[i] == ','
    {
      LowerFacts(s[i]);
    }
  }

  /** `sep.join(parts)` */
  function Join(parts: seq<string>, sep: char): string {
    if parts == [] then []
    else if |parts| == 1 then parts[0]
    else parts[0] + [sep] + Join(parts[1..], sep)
  }

  /** `s.split(sep)`: the maximal separator-free pieces of `s`, in order. */
  function Split(s: string, sep: char): (parts: seq<string>)
    ensures |parts| >= 1
    ensures forall p :: p in parts ==> sep !in p
    decreases |s|
  {
    if s == [] then [[]]
    else
      var rest := Split(s[1..], sep);
      if s[0] == sep then
        assert forall p :: p in [[]] + rest ==> p == [] || p in rest;
        [[]] + rest
      else
        var parts := [[s[0]] + rest[0]] + rest[1..];
        assert forall p :: p in parts ==> p == parts[0] || p in rest[1..];
        assert sep !in rest[0];
        parts
  }

  /** Joining the pieces back with the separator restores the string. */
  lemma {:induction false} JoinSplit(s: string, sep: char)
    ensures Join(Split(s, sep), sep) == s
    decreases |s|
  {
    if s != [] {
      var rest := Split(s[1..], sep);
      JoinSplit(s[1..], sep);
      if s[0] == sep {
        assert Split(s, sep) == [[]] + rest;
        assert ([[]] + rest)[1..] == rest;
        assert Join([[]] + rest, sep) == [] + [sep] + Join(rest, sep);
      } else {
        var parts := [[s[0]] + rest[0]] + rest[1..];
        assert Split(s, sep) == parts;
        assert parts[1..] == rest[1..];
        if |rest| == 1 {
          assert Join(parts, sep) == [s[0]] + rest[0];
        } else {
          assert Join(rest, sep) == rest[0] + [sep] + Join(rest[1..], sep);
          assert Join(parts, sep) == [s[0]] + rest[0] + [sep] + Join(rest[1..], sep);
        }
        assert [s[0]] + s[1..] == s;
      }
    }
  }

  /** A string without the separator splits into itself alone. */
  lemma {:induction false} SplitNoSeparator(s: string, sep: char)
    requires sep !in s
    ensures Split(s, sep) == [s]
    decreases |s|
  {
    if s != [] {
      SplitNoSeparator(s[1..], sep);
      assert [s[0]] + s[1..] == s;
    }
  }

  /** One step of the split: a separator opens a new piece, any other character extends the first. */
  lemma SplitCons(c: char, s: string, sep: char)
    ensures c == sep ==> Split([c] + s, sep) == [[]] + Split(s, sep)
    ensures c != sep ==> Split([c] + s, sep) == [[c] + Split(s, sep)[0]] + Split(s, sep)[1..]
  {
    assert ([c] + s)[1..] == s;
  }

  /** A separator-free prefix followed by the separator is split off as the first piece. */
  lemma {:induction false} SplitPrefix(p: string, x: string, sep: char)
    requires sep !in p
    ensures Split(p + [sep] + x, sep) == [p] + Split(x, sep)
    decreases |p|
  {
    if p == [] {
      assert p + [sep] + x == [sep] + x;
      SplitCons(sep, x, sep);
    } else {
      var tail := p[1..] + [sep] + x;
      assert p + [sep] + x == [p[0]] + tail;
      SplitPrefix(p[1..], x, sep);
      SplitCons(p[0], tail, sep);
      assert [p[0]] + p[1..] == p;
    }
  }

  /** Joining two non-empty lists of pieces puts one separator between their joins. */
  lemma {:induction false} JoinAppend(xs: seq<string>, ys: seq<string>, sep: char)
    requires |xs| >= 1 && |ys| >= 1
    ensures Join(xs + ys, sep) == Join(xs, sep) + [sep] + Join(ys, sep)
    decreases |xs|
  {
    assert (xs + ys)[0] == xs[0];
    assert (xs + ys)[1..] == xs[1..] + ys;
    if |xs| > 1 {
      JoinAppend(xs[1..], ys, sep);
    } else {
      assert xs[1..] + ys == ys;
    }
  }

  /** Joining separator-free pieces and splitting again restores the pieces. */
  lemma {:induction false} SplitJoin(parts: seq<string>, sep: char)
    requires |parts| >= 1
    requires forall p :: p in parts ==> sep !in p
    ensures Split(Join(parts, sep), sep) == parts
    decreases |parts|
  {
    if |parts| == 1 {
      SplitNoSeparator(parts[0], sep);
    } else {
      assert forall p :: p in parts[1..] ==> p in parts;
      SplitJoin(parts[1..], sep);
      SplitPrefix(parts[0], Join(parts[1..], sep), sep);
      assert [parts[0]] + parts[1..] == parts;
    }
  }

  /** Splitting distributes over a separator: the pieces of `a` come first, then those of `b`. */
  lemma SplitAround(a: string, b: string, sep: char)
    ensures Split(a + [sep] + b, sep) == Split(a, sep) + Split(b, sep)
  {
    var pieces := Split(a, sep) + Split(b, sep);
    JoinSplit(a, sep);
    JoinSplit(b, sep);
    JoinAppend(Split(a, sep), Split(b, sep), sep);
    assert forall p :: p in pieces ==> p in Split(a, sep) || p in Split(b, sep);
    SplitJoin(pieces, sep);
  }

  /** Index of the first occurrence of `c` in `s`, if any. */
  function IndexOf(s: string, c: char): (r: Option<nat>)
    ensures r.None? <==> c !in s
    ensures r.Some? ==> r.value < |s| && s[r.value] == c && c !in s[..r.value]
  {
    if s == [] then None
    else if s[0] == c then Some(0)
    else match IndexOf(s[1..], c)
      case None => None
      case Some(i) =>
        assert s[..i + 1] == [s[0]] + s[1..][..i];
        Some(i + 1)
  }

  /** `s.split(c, 1)` when `c` occurs in `s`: the text before the first `c` and the text after it. */
  function SplitOnce(s: string, c: char): (r: Option<(string, string)>)
    ensures r.None? <==> c !in s
    ensures r.Some? ==> c !in r.value.0 && r.value.0 + [c] + r.value.1 == s
  {
    match IndexOf(s, c)
    case None => None
    case Some(i) =>
      assert s[..i] + [c] + s[i + 1..] == s;
      Some((s[..i], s[i + 1..]))
  }

  /** `c` is found right after a prefix that lacks it. */
  lemma {:induction false} IndexOfAfter(a: string, b: string, c: char)
    requires c !in a
    ensures IndexOf(a + [c] + b, c) == Some(|a|)
    decreases |a|
  {
    var s := a + [c] + b;
    if a != [] {
      assert s[1..] == a[1..] + [c] + b;
      IndexOfAfter(a[1..], b, c);
    }
  }

  /** Splitting `a + [c] + b` at its first `c`, where `a` has none, gives back `a` and `b`. */
  lemma SplitOnceOf(a: string, b: string, c: char)
    requires c !in a
    ensures SplitOnce(a + [c] + b, c) == Some((a, b))
  {
    var s := a + [c] + b;
    IndexOfAfter(a, b, c);
    assert s[..|a|] == a;
    assert s[|a| + 1..] == b;
  }
}

=== FILE: tokens.dfy ===
/**
  `re.findall(r'\w+', s)`: the maximal runs of word characters of a string,
  left to right. The matcher compares keys and messages through these tokens.
 */
module Tokens {
  import opened Chars

  /** Every character of `s` is a word character. */
  predicate AllWord(s: string) {
    forall i :: 0 <= i < |s| ==> IsWordChar(s[i])
  }

  /** Where the run of word characters starting at position `p` of `s` ends. */
  function RunEnd(s: string, p: nat): (q: nat)
    requires p <= |s|
    ensures p <= q <= |s|
    ensures forall m :: p <= m < q ==> IsWordChar(s[m])
    ensures q == |s| || !IsWordChar(s[q])
    decreases |s| - p
  {
    if p < |s| && IsWordChar(s[p]) then RunEnd(s, p + 1) else p
  }

  /** `re.findall(r'\w+', s[p:])`, scanning `s` from position `p`. */
  function TokensFrom(s: string, p: nat): seq<string>
    requires p <= |s|
    decreases |s| - p
  {
    if p == |s| then []
    else if !IsWordChar(s[p]) then TokensFrom(s, p + 1)
    else [s[p..RunEnd(s, p)]] + TokensFrom(s, RunEnd(s, p))
  }

  /** `re.findall(r'\w+', s)` */
  function Tokens(s: string): seq<string> {
    TokensFrom(s, 0)
  }

  /** `set(re.findall(r'\w+', s))` */
  function TokenSet(s: string): set<string> {
    set t | t in Tokens(s)
  }

  /** `s[i..j]` is a maximal run of word characters: a whole word of `s`. */
  ghost predicate TokenAt(s: string, i: int, j: int) {
    && 0 <= i < j <= |s|
    && (forall m :: i <= m < j ==> IsWordChar(s[m]))
    && (i == 0 || !IsWordChar(s[i - 1]))
    && (j == |s| || !IsWordChar(s[j]))
  }

  /** Position `p` cannot fall inside a word: a scan starting there sees whole words only. */
  ghost predicate WordBoundary(s: string, p: nat)
    requires p <= |s|
  {
    p == 0 || p == |s| || !IsWordChar(s[p - 1]) || !IsWordChar(s[p])
  }

  /** Every token of a scan from a word boundary is a whole word at or after the start. */
  lemma {:induction false} TokensFromSound(s: string, p: nat, t: string) returns (i: nat, j: nat)
    requires p <= |s| && WordBoundary(s, p)
    requires t in TokensFrom(s, p)
    ensures p <= i && TokenAt(s, i, j) && s[i..j] == t
    decreases |s| - p
  {
    if !IsWordChar(s[p]) {
      i, j := TokensFromSound(s, p + 1, t);
    } else {
      var q := RunEnd(s, p);
      if t == s[p..q] {
        i, j := p, q;
      } else {
        i, j := TokensFromSound(s, q, t);
      }
    }
  }

  /** The run starting at a whole word's first character is that word. */
  lemma RunIsWord(s: string, i: int, j: int)
    requires TokenAt(s, i, j)
    ensures RunEnd(s, i) == j
  {
    var q := RunEnd(s, i);
    assert j < |s| ==> !IsWordChar(s[j]);
    assert q < |s| ==> !IsWordChar(s[q]);
  }

  /** Every whole word at or after the start is among the tokens of the scan. */
  lemma {:induction false} TokensFromComplete(s: string, p: nat, i: int, j: int)
    requires p <= i && TokenAt(s, i, j)
    ensures s[i..j] in TokensFrom(s, p)
    decreases |s| - p
  {
    assert IsWordChar(s[i]);
    if !IsWordChar(s[p]) {
      TokensFromComplete(s, p + 1, i, j);
    } else if p == i {
      RunIsWord(s, i, j);
    } else {
      var q := RunEnd(s, p);
      assert q <= i - 1;
      TokensFromComplete(s, q, i, j);
    }
  }

  /** Every token the scan returns is a whole word of `s`, found where it occurs. */
  lemma TokensSound(s: string, t: string) returns (i: nat, j: nat)
    requires t in Tokens(s)
    ensures TokenAt(s, i, j) && s[i..j] == t
  {
    i, j := TokensFromSound(s, 0, t);
  }

  /** Every whole word of `s` is among the tokens the scan returns. */
  lemma TokensComplete(s: string, i: int, j: int)
    requires TokenAt(s, i, j)
    ensures s[i..j] in Tokens(s)
  {
    TokensFromComplete(s, 0, i, j);
  }

  /** The token set holds exactly the whole words of `s`. */
  lemma TokenSetIsWholeWords(s: string, t: string)
    ensures t in TokenSet(s) <==> exists i, j :: TokenAt(s, i, j) && s[i..j] == t
  {
    if t in TokenSet(s) {
      var i, j := TokensSound(s, t);
    }
    if exists i, j :: TokenAt(s, i, j) && s[i..j] == t {
      var i, j :| TokenAt(s, i, j) && s[i..j] == t;
      TokensComplete(s, i, j);
    }
  }

  /** A non-empty run of word characters is its own single token. */
  lemma WordIsOwnToken(w: string)
    requires w != [] && AllWord(w)
    ensures w in TokenSet(w)
  {
    assert w[0..|w|] == w;
    TokensComplete(w, 0, |w|);
  }

  /** A non-empty run of word characters has no other token than itself. */
  lemma WordTokens(w: string)
    requires w != [] && AllWord(w)
    ensures TokenSet(w) == {w}
  {
    forall t | t in TokenSet(w) ensures t == w {
      var i, j := TokensSound(w, t);
      assert i == 0 && j == |w|;
      assert w[0..|w|] == w;
    }
    WordIsOwnToken(w);
  }
}
